=== FILE: README.md ===
# Xpost-Show playback core, modelled in Dafny

Xpost-Show is a Node server that drives a broadcast overlay. An operator
queues posts from twitter.com / x.com. A display page shows one post at a
time, and the server can advance through the queue on a timer. This project
models the server's playback state machine in `server.js`. Each handler
becomes a pure transition over one immutable state record (`Overlay.State`).
The record holds:

- `queue`, the queued items;
- `cursor`, which is `currentIndex`;
- `auto`, which is `autoState.active`;
- `timer`, the one pending auto-advance, as an optional delay in ms;
- `settings`, the global display settings.

A transition returns the next state and the socket events the handler
emitted, in order (`show_tweet`, `state_update`, `hide_tweet`). The modules
follow the server's parts:

- `Js`: JavaScript truthiness, `||`, and the truncating `%`.
- `Overlay`: items, settings, state, events, and the invariant `Valid`.
- `DisplaySettings`: the per-item settings merge and the timer-duration rule.
- `Playback`: `showTweet`, next and previous, the auto toggle, `/hide`, and
  the timer callback.
- `Manage`: delete and clear in `/api/manage`, and `/api/edit_tweet`.
- `TweetUrl`: the id regular expression of `processAdd`, written out as the
  backtracking engine runs it.
- `Intake`: `/api/add`, which is the id check, the duplicate check and the
  append.
- `Server`: every route and the timer as one `Apply`, the invariant over
  every run, and the completion of `loadDatabase`.
- `AsWritten`: two handlers as written, `/api/control` next/prev and
  delete, where they break the invariant (see Findings).

The invariant is `Overlay.Valid`. The cursor is -1 or a valid index, and a
timer is pending only while auto-advance is on over a non-empty queue.
`Server.Reachable` proves that every run of commands from the start state
keeps this invariant. It holds for the routes as the model dispatches them,
with `/api/control` next and prev and `/api/manage` delete in their
corrected forms; as written, those two handlers break the invariant (see
Findings). A start-up load that completes after the first command is not
one of those commands either, and it can break the invariant too
(`Server.LateRestoreAfterCommands`). "At most one pending timer" holds by construction,
because the timer is a single optional field that `showTweet` overwrites.

The model follows the code where it departs from the product's wider
design:

- `/hide` leaves the cursor where it is.
- Nothing in the code pins items, marks them as breaking, swaps them or
  patches settings.
- The duplicate check compares the id taken from the URL with the queued
  items' `id_str`. The appended item's `id_str` is whatever the fetched
  payload carries.
- "Previous" with nothing shown uses the same formula with cursor -1. It
  therefore lands on the second-to-last item, not the last
  (`Playback.PrevFromIdle`).

## Model

| member | source | states |
|---|---|---|
| Js.Rem | server.js:124-125 | JavaScript's `%` keeps the sign of the dividend: the result differs from the dividend by a multiple of the divisor and lies in (-n, 0] for a negative dividend, [0, n) otherwise |
| Js.Or | server.js:60-87 | `a \|\| b` is `a` when `a` is truthy and `b` otherwise |
| Overlay.Snapshot | server.js:50-52 | the `state_update` broadcast carries the queue, the cursor, the auto flag and the global settings |
| Overlay.SnapshotHidesOnlyTimer | server.js:50-52 | two states broadcast alike exactly when they differ at most in the pending timer |
| Overlay.InitialIsValidAndIdle | server.js:17-26 | the start state has an empty queue, nothing shown, auto off, no timer, keeps the invariant, and its default duration is 10 s |
| DisplaySettings.Effective | server.js:60 | the displayed settings have the keys of both objects; an item key wins where the item has it, every other key keeps its global value |
| DisplaySettings.EffectiveWithoutOverrides | server.js:60 | an item without custom settings is shown with exactly the global settings |
| DisplaySettings.ArmDuration | server.js:69 | the timer waits 1000 × the item's duration override, unless the override is null or 0, in which case it waits 1000 × the global default |
| Playback.ShowTweet | server.js:54-72 | an index outside [0, len) leaves the whole state unchanged and emits nothing; a valid one sets the cursor, emits exactly one show event with position i+1, total len and the merged settings, then a state broadcast, and replaces the timer by one for this item only when auto is on |
| Playback.ShowTwice | server.js:54-72 | showing the same index twice yields the same state as showing it once |
| Playback.Next | server.js:148 | on an empty queue nothing happens; otherwise next shows (cursor+1) mod len: from -1 it shows 0, from the last item it wraps to 0 |
| Playback.Prev | server.js:149 | on an empty queue nothing happens; otherwise, from any cursor from -1 up, prev is exactly `showTweet((cursor-1+len) mod len)`, and from item 0 it wraps to the last item |
| Playback.PrevFromIdle | server.js:149 | with nothing shown, prev shows the second-to-last item (item 0 of a one-item queue) |
| Playback.PrevUndoesNext | server.js:148-149 | from a valid cursor, prev after next and next after prev return to the same cursor |
| Playback.NextTimesMoves | server.js:148 | n ≤ len presses of next move a valid cursor n places forward, wrapping once, and leave the queue unchanged |
| Playback.NextCycle | server.js:148 | len presses of next from a valid cursor return to the same cursor |
| Playback.ToggleAuto | server.js:126-129 | the toggle flips auto; turning it off cancels the timer and broadcasts; turning it on shows 0 from -1, or re-shows the cursor, which arms the timer for that item |
| Playback.ToggleTwice | server.js:150 | on then off ends with auto off and no timer, with the cursor the first toggle chose |
| Playback.HideDisplay | server.js:151 | hide emits hide then a broadcast, turns auto off, cancels the timer, and keeps queue and cursor |
| Playback.HideTwice | server.js:151 | hiding twice is the same as hiding once |
| Playback.Fire | server.js:70 | the callback shows (cursor+1) mod len and, since auto is on, arms the next timer for that item; the invariant is kept |
| Manage.RemoveAt | server.js:137 | removing index k shortens the queue by one, keeps the items before k and shifts the ones after it down |
| Manage.Delete | server.js:136-143 | deleting keeps the settings and has these outcomes: an emptied queue goes idle and emits hide; deleting the shown item re-shows index mod newLen; deleting below the cursor decrements it; deleting above leaves it; an index the queue does not hold changes nothing |
| Manage.DeleteKeepsSelection | server.js:140 | deleting a valid index other than the cursor keeps the same item selected and leaves auto and timer alone |
| Manage.DeleteShown | server.js:139 | deleting the shown item shows the item that moved into its place, or item 0 when it was the last; the timer is re-armed for that item if auto is on |
| Manage.DeleteLast | server.js:138 | deleting the only item leaves an empty, idle state and emits hide first |
| Manage.DeleteOutOfRange | server.js:137-143 | in the corrected delete, an index outside [0, len) on a non-empty queue only re-broadcasts the state; the handler as written does the same for an index ≥ len, but splices a negative index from the end |
| Manage.Clear | server.js:142-143 | clear always yields the empty idle state, emits hide then a broadcast, and keeps the settings |
| Manage.WithTheme | server.js:104-107 | the item keeps its id, content and duration; its override object exists, has the new theme, and has exactly the other keys it had, with their values |
| Manage.EditTweet | server.js:100-113 | an index outside the queue changes nothing and emits nothing; otherwise only that item changes, and cursor, auto and settings stay; when the item is the shown one it is re-shown exactly as `showTweet` does, so the timer restarts for it under auto and a show event and a state broadcast follow; otherwise the timer is untouched and the state is broadcast |
| Manage.EditTwice | server.js:107 | setting the same theme twice leaves the queue as the first edit did |
| Manage.EditedThemeWins | server.js:104-107 | the edited item is displayed with the new theme, and every other displayed key keeps its value |
| TweetUrl.LastStatus | server.js:76 | finds the last position in a range where `/status/` and a digit start, or reports that there is none |
| TweetUrl.FirstMatch | server.js:76 | finds the leftmost start from which the pattern matches and the longest `.*` from it, or reports that no start matches |
| TweetUrl.DigitRun | server.js:76 | returns the maximal run of digits starting at a position |
| TweetUrl.ExtractId | server.js:76-77 | an id is found exactly when the pattern matches somewhere; the id is the non-empty maximal run of digits after `/status/` at the leftmost match with the longest `.*` |
| TweetUrl.ChosenMatchUnique | server.js:76 | the leftmost-longest match is unique |
| TweetUrl.ExampleMatch | server.js:76 | `x.com/a/status/7` yields the id `7` |
| TweetUrl.ExampleNoMatch | server.js:76 | `x.com/status/7` does not match, because the pattern needs a `/` both after the host and before `status` |
| Intake.FindIndex | server.js:78 | the search finds the first item with the id, or finds none exactly when no item has it |
| Intake.NewTweet | server.js:85-89 | the queued item is the fetched payload with theme `theme \|\| 'classic'` as its only override and no duration override |
| Intake.AddCheck | server.js:76-118 | before the fetch: no URL, invalid URL when nothing matches, already exists when the id is queued, and otherwise the fetch of the extracted id starts |
| Intake.AddComplete | server.js:81-95 | after the fetch: a failed fetch changes nothing; a successful one appends exactly one item at the end, without checking the queue again, and broadcasts |
| Intake.Add | server.js:75-97 | an add whose fetch settles before any other command: the reply is no URL, invalid URL, already exists, fetch error or added; only an added post changes the state, by appending at the end and broadcasting |
| Intake.OverlappingAddsDuplicate | server.js:78-91 | two adds of one post whose fetches are both pending each pass the duplicate check, and the post ends up queued twice |
| Intake.AddTwiceIsDuplicate | server.js:78-79 | adding the same post a second time is refused and leaves one copy |
| Server.ControlRoute | server.js:121-132 | `/api/control` keeps the invariant and the settings; next and prev on a non-empty queue give exactly the transition of the handler as written; an unknown action does nothing and emits nothing |
| Server.ManageRoute | server.js:134-144 | `/api/manage` keeps the invariant and the settings and always ends with a state broadcast; delete agrees with the handler as written for every index in the queue and, from a state that keeps the invariant, every index past it; clear leaves an empty idle queue; an unknown action only broadcasts |
| Server.Apply | server.js:100-151 | every route and the timer callback keep the invariant and never change the global settings |
| Server.Run | server.js:100-151 | any run of commands from a state that keeps the invariant ends in one that keeps it |
| Server.Reachable | server.js:17-26 | every state reached from the start by commands keeps the invariant, and the settings stay the initial ones |
| Server.RunKeepsSettings | server.js:22-26 | no run of commands changes the global settings |
| Server.EmptiedQueueIsIdle | server.js:138-142 | a delete or clear that empties the queue leaves the state idle and emits hide |
| Server.NoShowAfterCancel | server.js:129-151 | after the toggle or hide turns auto off, no timer is pending, and a timer firing shows nothing |
| Server.AddThenDelete | server.js:91 | deleting the item an add just appended gives back the previous queue |
| Server.Restore | server.js:33-35 | a stored queue replaces the queue and is broadcast; cursor, auto and timer stay as they were |
| Server.RestoreWhileIdle | server.js:33-35 | a load completing before anything was shown keeps the invariant |
| Server.LateRestoreBreaksCursor | server.js:29-48 | a load completing after an item was shown under auto-advance can leave the cursor past the end and a timer pending over an empty queue |
| Server.LateRestoreAfterCommands | server.js:29-48 | from the start, adding a post by any URL whose id it carries and turning auto-advance on gives a state that keeps the invariant; a load of an empty stored queue completing then leaves cursor 0 and a pending timer over an empty queue |
| Server.FirstAddQueues | server.js:75-91 | from the start state, adding a post by any URL whose id it carries queues exactly that post and changes nothing else |
| Server.RunTwo | server.js:100-151 | a run of two commands is the second command applied to the state the first leaves |
| AsWritten.ControlNext | server.js:124 | on a non-empty queue the route completes with exactly the transition of `Playback.Next`: cursor, events, timer and state; on an empty queue it throws and leaves the cursor NaN |
| AsWritten.ControlPrev | server.js:125 | on a non-empty queue the route completes with exactly the transition of `Playback.Prev`: cursor, events, timer and state; on an empty queue it throws and leaves the cursor NaN |
| AsWritten.EmptyQueueCorruptsCursor | server.js:124-125 | on an empty queue both routes store NaN as the cursor and throw, while `Playback.Next` and `Playback.Prev` change nothing |
| AsWritten.Splice | server.js:137 | `queue.splice(index, 1)` removes the item at the splice start when there is one and otherwise leaves the queue as it was |
| AsWritten.SpliceStart | server.js:137 | splice counts a negative index from the end, clamped at 0, and clamps a large index to the length |
| AsWritten.DeleteUnchecked | server.js:136-141 | the handler as written agrees with `Manage.Delete` on every index in the queue, and, from a state that keeps the invariant, on every index past it |
| AsWritten.NegativeDeleteCorruptsCursor | server.js:137-140 | deleting at -3 from five items with nothing shown removes the third item and sets the cursor to -2 |

## Left out

- HTTP routing, the replies of `/api/control`, `/api/manage` and `/api/edit_tweet` (success, unless the handler throws), static files, `/trigger_add`, `/debug-save` and `listen`: transport only. `Intake.Add` does return the add route's reply.
- Socket fan-out: emitting is appending to the transition's event list. The `connection` handler (line 154) only re-broadcasts the state.
- `saveDatabase`: fire-and-forget I/O with no effect on the in-memory state. The load's network part is the input of `Server.Restore`.
- The upstream tweet fetch: it is the `fetched` input of `Intake.Add`, with `None` for a failed request. The payload is an opaque `content` string plus `idStr`.
- Real timers and time: a pending timer is its delay in ms. `setTimeout`'s treatment of zero or negative delays is not modelled.
- Floating-point values, such as `scale` or a fractional duration: settings values are `Js.Value`, with non-integers as the uninterpreted `Other`.
- Non-integer request values: an index that is a string, `undefined` or a fraction, and a `url` that is not a string. `showTweet(undefined)` passes the range guard and then throws; the model takes indices as integers.
- Playback.Next: the `/api/control` route on an empty queue is modelled by `AsWritten.ControlNext`. `Playback.Next` is the `/trigger_next` behaviour, which the model uses for both routes.
- Manage.Delete: indices outside the queue are ignored. The handler as written is `AsWritten.DeleteUnchecked`.
- Manage.DeleteOutOfRange: states the corrected delete. It holds for the handler as written only when the index is ≥ len; the handler splices a negative index from the end.
- Server.Apply: dispatches `/api/control` next and prev (lines 124-125) and `/api/manage` delete (line 137) in their corrected forms, `Playback.Next`, `Playback.Prev` and `Manage.Delete`. As written, next or prev on an empty queue stores a NaN cursor and a negative delete index can set the cursor to -2, and both break the invariant (see Findings, `AsWritten.EmptyQueueCorruptsCursor`, `AsWritten.NegativeDeleteCorruptsCursor`).
- Server.Reachable: the runs are of the commands as `Server.Apply` dispatches them, so they use the corrected next, prev and delete named under `Server.Apply`; as written, `/api/control` next as the very first command already leaves a NaN cursor. The runs are also commands only. The completion of `loadDatabase` (line 48) is not awaited before `listen` (line 156), so it can arrive after commands; it is `Server.Restore`, outside `Command`. `Server.LateRestoreBreaksCursor` and `Server.LateRestoreAfterCommands` show that such a late load breaks the invariant, and then the timer computes `(0+1) % 0`, which is NaN.
- Intake.Add: runs the duplicate check and the append as one step, although the source awaits the fetch between them (line 82). `Server.Apply` uses this one-step form. The interleaving is modelled by `Intake.AddCheck` and `Intake.AddComplete`, and `Intake.OverlappingAddsDuplicate` shows the duplicate it allows.
- Pinned and breaking flags, custom cards, move up / move down, settings patches and duration edits: none of these exist in `server.js`.

## Findings

| source | as written | input that shows it | evidently intended | confidence | as-written member | corrected member |
|---|---|---|---|---|---|---|
| server.js:124-125 | next and prev take the new index modulo the queue length without checking that the queue is non-empty | `/api/control` with action `next` on an empty queue: the index is NaN, which passes the range guard of `showTweet`, `currentIndex` becomes NaN and reading `queue[NaN]` throws | ignore next and prev on an empty queue, as `/trigger_next` and `/trigger_prev` do (lines 148-149) | not executed; high | AsWritten.EmptyQueueCorruptsCursor | Playback.Next |
| server.js:137-140 | delete splices and compares the request's index with no range check | delete with index -3 on a five-item queue with nothing shown: splice removes the third item and `index < currentIndex` sets the cursor to -2 | ignore an index the queue does not hold, as `/api/edit_tweet` does (line 102) | not executed; medium | AsWritten.NegativeDeleteCorruptsCursor | Manage.Delete |

=== FILE: as_written.dfy ===
/** Two handlers modelled exactly as written, including the inputs on which
    they break the invariant the rest of the model keeps: `next`/`prev`
    through `/api/control` on an empty queue, and `delete` with a negative
    index. */
module AsWritten {
  import opened Wrappers
  import opened Js
  import opened Overlay
  import opened Playback
  import opened Manage

  /** A JavaScript number as far as the cursor needs one. */
  datatype JsNumber = Finite(v: int) | NaN

  /** `x % len` in JavaScript: `NaN` when the divisor is 0. */
  function JsMod(x: int, len: nat): (r: JsNumber)
    ensures len == 0 <==> r.NaN?
  {
    if len == 0 then NaN else Finite(Rem(x, len))
  }

  /** What `/api/control` with action `next` or `prev` does: it either
      completes with a transition, or throws. `showTweet(NaN)` passes the
      range guard (both comparisons with `NaN` are false), stores `NaN` as
      `currentIndex`, and then reads a property of `queue[NaN]`, which is
      `undefined`; `current` is the cursor the throw leaves behind. */
  datatype RouteEffect = Completed(t: Transition) | Threw(current: JsNumber)

  function ControlNext(s: State): (r: RouteEffect)
    ensures |s.queue| > 0 ==> r == Completed(Next(s))
    ensures |s.queue| == 0 ==> r == Threw(NaN)
  {
    match JsMod(s.cursor + 1, |s.queue|)
    case NaN => Threw(NaN)
    case Finite(i) => Completed(ShowTweet(s, i))
  }

  function ControlPrev(s: State): (r: RouteEffect)
    ensures |s.queue| > 0 ==> r == Completed(Prev(s))
    ensures |s.queue| == 0 ==> r == Threw(NaN)
  {
    match JsMod(s.cursor - 1 + |s.queue|, |s.queue|)
    case NaN => Threw(NaN)
    case Finite(i) => Completed(ShowTweet(s, i))
  }

  /** On an empty queue both routes store `NaN` as the cursor (neither -1 nor
      an index) and fail; the corrected `Playback.Next`/`Prev` leave the
      state as it was. */
  lemma EmptyQueueCorruptsCursor(s: State)
    requires Valid(s) && |s.queue| == 0
    ensures ControlNext(s) == Threw(NaN) && ControlPrev(s) == Threw(NaN)
    ensures Next(s) == Transition(s, []) && Prev(s) == Transition(s, [])
  {
  }

  /** Where `Array.prototype.splice(index, 1)` starts: a negative index counts
      from the end (clamped at 0), a large one is clamped to the length. */
  function SpliceStart(index: int, len: nat): (k: nat)
    ensures k <= len
    ensures 0 <= index < len ==> k == index
    ensures index >= len ==> k == len
    ensures index < 0 && len + index >= 0 ==> k == len + index
    ensures len + index < 0 ==> k == 0
  {
    if index < 0 then (if len + index < 0 then 0 else len + index)
    else if index < len then index else len
  }

  /** `queue.splice(index, 1)`. */
  function Splice(q: seq<Item>, index: int): (r: seq<Item>)
    ensures SpliceStart(index, |q|) < |q| ==> r == RemoveAt(q, SpliceStart(index, |q|))
    ensures SpliceStart(index, |q|) == |q| ==> r == q
  {
    var k := SpliceStart(index, |q|);
    if k < |q| then RemoveAt(q, k) else q
  }

  /** `/api/manage` delete as written: splice, then compare the raw index
      with the cursor. */
  function DeleteUnchecked(s: State, index: int): (t: Transition)
    ensures t.state.queue == Splice(s.queue, index)
    ensures 0 <= index < |s.queue| ==> t == Delete(s, index)
    ensures Valid(s) && index >= |s.queue| ==> t == Delete(s, index)
  {
    var q := Splice(s.queue, index);
    if |q| == 0 then
      var idle := Emptied(s, q);
      Transition(idle, [Hide, Snapshot(idle)])
    else if index == s.cursor then
      var u := ShowTweet(s.(queue := q), Rem(index, |q|));
      Transition(u.state, u.events + [Snapshot(u.state)])
    else if index < s.cursor then
      var moved := s.(queue := q, cursor := s.cursor - 1);
      Transition(moved, [Snapshot(moved)])
    else
      var kept := s.(queue := q);
      Transition(kept, [Snapshot(kept)])
  }

  /** Deleting at -3 from five items while nothing is shown removes the third
      item and moves the cursor to -2. */
  lemma NegativeDeleteCorruptsCursor(a: Item, b: Item, c: Item, d: Item, e: Item)
    ensures var s := State([a, b, c, d, e], -1, false, None, InitialSettings);
      && Valid(s)
      && DeleteUnchecked(s, -3).state.queue == [a, b, d, e]
      && DeleteUnchecked(s, -3).state.cursor == -2
      && !Valid(DeleteUnchecked(s, -3).state)
      && Delete(s, -3).state == s
  {
    var s := State([a, b, c, d, e], -1, false, None, InitialSettings);
    assert Splice(s.queue, -3) == [a, b, d, e];
  }
}

=== FILE: intake.dfy ===
/** `/api/add` and the pure part of `processAdd`: take the post id from the
    URL, refuse an id already queued, and append the fetched post with its
    theme. The fetch itself is the opaque input `fetched` (`None` when the
    request failed). */
module Intake {
  import opened Wrappers
  import opened Js
  import opened Overlay
  import opened TweetUrl

  /** The handler's reply. */
  datatype AddReply = Added | AlreadyExists | InvalidUrl | FetchError | NoUrl

  datatype AddOutcome = AddOutcome(step: Transition, reply: AddReply)

  /** Some queued item has this `id_str`. */
  predicate Queued(q: seq<Item>, id: string) {
    exists j :: 0 <= j < |q| && q[j].idStr == id
  }

  /** Linear search standing for `queue.find(t => t.id_str === id)`. */
  function FindIndex(q: seq<Item>, id: string): (r: Option<nat>)
    ensures r.Some? ==> r.value < |q| && q[r.value].idStr == id
    ensures r.Some? ==> forall j :: 0 <= j < r.value ==> q[j].idStr != id
    ensures r.None? <==> !Queued(q, id)
  {
    if |q| == 0 then None
    else if q[0].idStr == id then Some(0)
    else match FindIndex(q[1..], id)
      case None => None
      case Some(j) => Some(j + 1)
  }

  /** The item that is queued: the fetched payload with its theme
      (`theme || 'classic'`) and no duration override. */
  function NewTweet(fetched: Item, theme: Value): (r: Item)
    ensures r.idStr == fetched.idStr && r.content == fetched.content
    ensures r.customDuration.None?
    ensures r.customSettings.Some? && r.customSettings.value.Keys == {ThemeKey}
    ensures Truthy(theme) ==> r.customSettings.value[ThemeKey] == theme
    ensures !Truthy(theme) ==> r.customSettings.value[ThemeKey] == Text("classic")
  {
    fetched.(customSettings := Some(map[ThemeKey := Or(theme, Text("classic"))]), customDuration := None)
  }

  /** The part of `processAdd` that runs before the fetch is awaited: either
      the request is refused with its reply, or the fetch of `id` starts. */
  datatype Check = Refused(reply: AddReply) | Fetching(id: string)

  function AddCheck(q: seq<Item>, url: string): (c: Check)
    ensures url == "" ==> c == Refused(NoUrl)
    ensures url != "" && ExtractId(url).None? ==> c == Refused(InvalidUrl)
    ensures url != "" && ExtractId(url).Some? && Queued(q, ExtractId(url).value) ==>
              c == Refused(AlreadyExists)
    ensures url != "" && ExtractId(url).Some? && !Queued(q, ExtractId(url).value) ==>
              c == Fetching(ExtractId(url).value)
  {
    if url == "" then Refused(NoUrl)
    else match ExtractId(url)
      case None => Refused(InvalidUrl)
      case Some(id) => if FindIndex(q, id).Some? then Refused(AlreadyExists) else Fetching(id)
  }

  /** The part of `processAdd` that runs once the fetch has settled, against
      the state as it is then. It does not look at the queue again. */
  function AddComplete(s: State, theme: Value, fetched: Option<Item>): (r: AddOutcome)
    ensures fetched.None? ==> r == AddOutcome(Transition(s, []), FetchError)
    ensures fetched.Some? ==>
              && r.reply == Added
              && r.step.state == s.(queue := s.queue + [NewTweet(fetched.value, theme)])
              && r.step.events == [Snapshot(r.step.state)]
    ensures Valid(s) ==> Valid(r.step.state)
  {
    match fetched
    case None => AddOutcome(Transition(s, []), FetchError)
    case Some(data) =>
      var added := s.(queue := s.queue + [NewTweet(data, theme)]);
      AddOutcome(Transition(added, [Snapshot(added)]), Added)
  }

  /** `/api/add` for a URL string when its fetch settles before any other
      command runs. Only a successful add changes the state, and it changes
      nothing but the end of the queue. */
  function Add(s: State, url: string, theme: Value, fetched: Option<Item>): (r: AddOutcome)
    ensures url == "" ==> r.reply == NoUrl
    ensures url != "" && ExtractId(url).None? ==> r.reply == InvalidUrl
    ensures url != "" && ExtractId(url).Some? && Queued(s.queue, ExtractId(url).value) ==>
              r.reply == AlreadyExists
    ensures url != "" && ExtractId(url).Some? && !Queued(s.queue, ExtractId(url).value) ==>
              r.reply == (if fetched.Some? then Added else FetchError)
    ensures r.reply != Added ==> r.step == Transition(s, [])
    ensures r.reply == Added ==>
              && fetched.Some?
              && r.step.state == s.(queue := s.queue + [NewTweet(fetched.value, theme)])
              && r.step.events == [Snapshot(r.step.state)]
    ensures Valid(s) ==> Valid(r.step.state)
  {
    match AddCheck(s.queue, url)
    case Refused(reply) => AddOutcome(Transition(s, []), reply)
    case Fetching(_) => AddComplete(s, theme, fetched)
  }

  /** Two adds of one post whose fetches are both still pending: each passes
      the duplicate check against the queue as it was, and when both fetches
      settle the post is queued twice. */
  lemma OverlappingAddsDuplicate(s: State, post: Item, theme: Value, theme': Value)
    requires s.queue == [] && post.idStr == "7"
    ensures AddCheck(s.queue, "x.com/a/status/7") == Fetching("7")
    ensures var first := AddComplete(s, theme, Some(post)).step.state;
      && AddCheck(first.queue, "x.com/a/status/7") == Refused(AlreadyExists)
      && var both := AddComplete(first, theme', Some(post)).step.state;
      && |both.queue| == 2
      && both.queue[0].idStr == "7" && both.queue[1].idStr == "7"
  {
    ExampleMatch();
    var first := AddComplete(s, theme, Some(post)).step.state;
    assert first.queue[0].idStr == "7";
  }

  /** Adding the same post twice: when the fetched payload carries the id the
      URL names, the second add is refused and the queue keeps one copy. */
  lemma AddTwiceIsDuplicate(s: State, url: string, theme: Value, theme': Value, fetched: Item, fetched': Option<Item>)
    ensures ExtractId(url).Some? && fetched.idStr == ExtractId(url).value && !Queued(s.queue, fetched.idStr) ==>
      var first := Add(s, url, theme, Some(fetched));
      && first.reply == Added
      && var second := Add(first.step.state, url, theme', fetched');
      && second.reply == AlreadyExists
      && second.step.state.queue == s.queue + [NewTweet(fetched, theme)]
  {
    var q := Add(s, url, theme, Some(fetched)).step.state.queue;
    if ExtractId(url).Some? && fetched.idStr == ExtractId(url).value && !Queued(s.queue, fetched.idStr) {
      assert q[|s.queue|].idStr == fetched.idStr;
    }
  }

}

=== FILE: js.dfy ===
/** The few pieces of JavaScript semantics the server's logic depends on:
    dynamically typed values, truthiness (for `||` and `if (x)`) and the
    truncating remainder operator `%`. */
module Js {

  /** A JSON-like value as the server stores it in settings objects.
      `Other` stands for values the model does not interpret (the floating
      point `scale`, nested objects, arrays); all of them are truthy. */
  datatype Value =
    | Undefined
    | Null
    | Flag(b: bool)
    | Number(n: int)
    | Text(s: string)
    | Other(repr: string)

  /** JavaScript truthiness: `undefined`, `null`, `false`, `0` and `""` are falsy. */
  predicate Truthy(v: Value) {
    match v
    case Undefined => false
    case Null => false
    case Flag(b) => b
    case Number(n) => n != 0
    case Text(s) => s != ""
    case Other(_) => true
  }

  /** `a || b`: the left operand when it is truthy, otherwise the right one. */
  function Or(a: Value, b: Value): (r: Value)
    ensures r == a || r == b
    ensures Truthy(a) ==> r == a
    ensures !Truthy(a) ==> r == b
  {
    if Truthy(a) then a else b
  }

  /** JavaScript's integer quotient for a positive divisor: it truncates
      toward zero. */
  function Quot(a: int, n: int): int
    requires n > 0
  {
    if a >= 0 then a / n else -((-a) / n)
  }

  /** JavaScript's `a % n` for a positive integer divisor: the remainder has
      the sign of the dividend, where Dafny's `%` is always non-negative. */
  function Rem(a: int, n: int): (r: int)
    requires n > 0
    ensures a == n * Quot(a, n) + r
    ensures a >= 0 ==> 0 <= r < n
    ensures a < 0 ==> -n < r <= 0
  {
    if a >= 0 then a % n
    else
      var q, m := (-a) / n, (-a) % n;
      assert -a == n * q + m;
      assert n * -q == -(n * q);
      -m
  }

  // Facts about Dafny's Euclidean `/` and `%` that the cursor proofs need.

  lemma MulAtLeast(n: int, k: int)
    requires n > 0 && k >= 1
    ensures n * k >= n
  {
    assert n * k == n * (k - 1) + n;
  }

  /** Quotient and remainder are the only pair with `a == n * d + m` and `0 <= m < n`. */
  lemma DivModUnique(a: int, n: int, d: int, m: int)
    requires n > 0 && 0 <= m < n && a == n * d + m
    ensures a % n == m && a / n == d
  {
    var d', m' := a / n, a % n;
    assert n * (d - d') == m' - m by {
      assert n * (d - d') == n * d - n * d';
    }
    if d > d' {
      MulAtLeast(n, d - d');
    } else if d < d' {
      MulAtLeast(n, d' - d);
    }
  }
}

=== FILE: manage.dfy ===
/** Queue maintenance: `/api/manage` (delete, clear) and `/api/edit_tweet`,
    with the cursor bookkeeping each of them does. */
module Manage {
  import opened Wrappers
  import opened Js
  import opened Overlay
  import opened DisplaySettings
  import opened Playback

  /** The queue without its element at `k`. */
  function RemoveAt(q: seq<Item>, k: nat): (r: seq<Item>)
    requires k < |q|
    ensures |r| == |q| - 1
    ensures forall j :: 0 <= j < k ==> r[j] == q[j]
    ensures forall j :: k <= j < |r| ==> r[j] == q[j + 1]
  {
    q[..k] + q[k + 1..]
  }

  /** The empty, idle state that both "clear" and deleting the last item
      lead to. */
  function Emptied(s: State, q: seq<Item>): State {
    s.(queue := q, cursor := -1, auto := false, timer := None)
  }

  /** The queue after a delete: the element at `index` removed when there is
      one, otherwise the queue unchanged. */
  function Removed(q: seq<Item>, index: int): (r: seq<Item>)
    ensures 0 <= index < |q| ==> r == RemoveAt(q, index)
    ensures !(0 <= index < |q|) ==> r == q
  {
    if 0 <= index < |q| then RemoveAt(q, index) else q
  }

  /** `/api/manage` with action `delete`, followed by the handler's closing
      broadcast. An index the queue does not hold removes nothing, as
      `/api/edit_tweet` treats it; the handler as written splices any index
      (see `AsWritten.DeleteUnchecked`). */
  function Delete(s: State, index: int): (t: Transition)
    ensures t.state.queue == Removed(s.queue, index)
    ensures t.state.settings == s.settings
    ensures |t.state.queue| == 0 ==> Idle(t.state) && t.events == [Hide, Snapshot(t.state)]
    ensures |t.state.queue| > 0 && !(0 <= index < |s.queue|) ==> t == Transition(s, [Snapshot(s)])
    ensures |t.state.queue| > 0 && 0 <= index < |s.queue| && index == s.cursor ==>
              var u := ShowTweet(s.(queue := t.state.queue), index % |t.state.queue|);
              t == Transition(u.state, u.events + [Snapshot(u.state)])
    ensures |t.state.queue| > 0 && 0 <= index < |s.queue| && index < s.cursor ==>
              t.state == s.(queue := t.state.queue, cursor := s.cursor - 1) && t.events == [Snapshot(t.state)]
    ensures |t.state.queue| > 0 && 0 <= index < |s.queue| && index > s.cursor ==>
              t.state == s.(queue := t.state.queue) && t.events == [Snapshot(t.state)]
    ensures Valid(s) ==> Valid(t.state)
  {
    var q := Removed(s.queue, index);
    if |q| == 0 then
      var idle := Emptied(s, q);
      Transition(idle, [Hide, Snapshot(idle)])
    else if !(0 <= index < |s.queue|) then
      Transition(s, [Snapshot(s)])
    else if index == s.cursor then
      var u := ShowTweet(s.(queue := q), index % |q|);
      Transition(u.state, u.events + [Snapshot(u.state)])
    else if index < s.cursor then
      var moved := s.(queue := q, cursor := s.cursor - 1);
      Transition(moved, [Snapshot(moved)])
    else
      var kept := s.(queue := q);
      Transition(kept, [Snapshot(kept)])
  }

  /** Deleting a valid index that is not the shown one keeps the same item
      selected: below the cursor the cursor moves down with it, above the
      cursor it stays. Auto-advance and the pending timer are untouched. */
  lemma DeleteKeepsSelection(s: State, index: int)
    requires Valid(s) && 0 <= index < |s.queue| && 0 <= s.cursor && index != s.cursor
    ensures var t := Delete(s, index);
      && 0 <= t.state.cursor < |t.state.queue|
      && t.state.queue[t.state.cursor] == s.queue[s.cursor]
      && t.state.auto == s.auto && t.state.timer == s.timer
  {
  }

  /** Deleting the shown item of a queue that keeps other items shows the
      item that moved into its place, or the first item when the last one
      was deleted; the timer is re-armed if auto-advance is on. */
  lemma DeleteShown(s: State)
    requires Valid(s) && 0 <= s.cursor && |s.queue| >= 2
    ensures var t := Delete(s, s.cursor);
      && t.state.cursor == (if s.cursor == |s.queue| - 1 then 0 else s.cursor)
      && t.state.queue[t.state.cursor] == (if s.cursor == |s.queue| - 1 then s.queue[0] else s.queue[s.cursor + 1])
      && t.events[0].Show? && t.events[0].tweet == t.state.queue[t.state.cursor]
      && (s.auto ==> t.state.timer == Some(ArmDuration(t.state.queue[t.state.cursor], s.settings)))
  {
    var len := |s.queue| - 1;
    if s.cursor < len {
      DivModUnique(s.cursor, len, 0, s.cursor);
    } else {
      DivModUnique(s.cursor, len, 1, 0);
    }
  }

  /** Deleting the only item goes idle, cancels auto-advance and hides. */
  lemma DeleteLast(s: State)
    requires |s.queue| == 1
    ensures var t := Delete(s, 0);
      Idle(t.state) && t.state.queue == [] && t.events[0] == Hide
  {
  }

  /** An index the queue does not hold changes nothing on a non-empty queue;
      only the state is broadcast again. */
  lemma DeleteOutOfRange(s: State, index: int)
    requires |s.queue| > 0 && !(0 <= index < |s.queue|)
    ensures Delete(s, index) == Transition(s, [Snapshot(s)])
  {
  }

  /** `/api/manage` with action `clear`. */
  function Clear(s: State): (t: Transition)
    ensures t.state.queue == [] && Idle(t.state) && Valid(t.state)
    ensures t.state.settings == s.settings
    ensures t.events == [Hide, Snapshot(t.state)]
  {
    var idle := Emptied(s, []);
    Transition(idle, [Hide, Snapshot(idle)])
  }

  /** The item with its theme override set, creating the override object if
      the item had none. */
  function WithTheme(item: Item, theme: Value): (r: Item)
    ensures r.idStr == item.idStr && r.content == item.content && r.customDuration == item.customDuration
    ensures r.customSettings.Some? && ThemeKey in r.customSettings.value
    ensures r.customSettings.value[ThemeKey] == theme
    ensures forall k :: k != ThemeKey ==>
              (k in r.customSettings.value <==> k in item.customSettings.GetOr(map[]))
    ensures forall k :: k != ThemeKey && k in r.customSettings.value ==>
              r.customSettings.value[k] == item.customSettings.GetOr(map[])[k]
  {
    item.(customSettings := Some(item.customSettings.GetOr(map[])[ThemeKey := theme]))
  }

  /** `/api/edit_tweet`: an existing index gets its theme override replaced;
      if it is the shown item it is shown again, otherwise the state is
      broadcast. Any other index changes nothing. */
  function EditTweet(s: State, index: int, theme: Value): (t: Transition)
    ensures !(0 <= index < |s.queue|) ==> t == Transition(s, [])
    ensures 0 <= index < |s.queue| ==>
              && |t.state.queue| == |s.queue|
              && t.state.queue[index] == WithTheme(s.queue[index], theme)
              && (forall j :: 0 <= j < |s.queue| && j != index ==> t.state.queue[j] == s.queue[j])
              && t.state.cursor == s.cursor && t.state.auto == s.auto && t.state.settings == s.settings
    ensures 0 <= index < |s.queue| && index == s.cursor ==>
              t == ShowTweet(s.(queue := t.state.queue), index)
    ensures 0 <= index < |s.queue| && index == s.cursor && s.auto ==>
              t.state.timer == Some(ArmDuration(t.state.queue[index], s.settings))
    ensures 0 <= index < |s.queue| && index == s.cursor ==>
              |t.events| == 2 && t.events[0] == Show(t.state.queue[index], index + 1, |s.queue|,
                                  Effective(s.settings, t.state.queue[index]))
    ensures 0 <= index < |s.queue| && index != s.cursor ==>
              t.state.timer == s.timer && t.events == [Snapshot(t.state)]
    ensures Valid(s) ==> Valid(t.state)
  {
    if 0 <= index < |s.queue| then
      var edited := s.(queue := s.queue[index := WithTheme(s.queue[index], theme)]);
      if s.cursor == index then ShowTweet(edited, index) else Transition(edited, [Snapshot(edited)])
    else Transition(s, [])
  }

  /** Setting the same theme twice leaves the queue as the first edit did. */
  lemma EditTwice(s: State, index: int, theme: Value)
    ensures var once := EditTweet(s, index, theme).state;
      EditTweet(once, index, theme).state.queue == once.queue
  {
    if 0 <= index < |s.queue| {
      var item := EditTweet(s, index, theme).state.queue[index];
      var m := item.customSettings.value;
      assert m[ThemeKey := theme] == m;
      assert WithTheme(item, theme) == item;
    }
  }

  /** The edited item is displayed with the new theme, whatever the global
      theme is, and every other key of its display keeps its old value. */
  lemma EditedThemeWins(s: State, index: int, theme: Value)
    requires 0 <= index < |s.queue|
    ensures var item := EditTweet(s, index, theme).state.queue[index];
      && Effective(s.settings, item)[ThemeKey] == theme
      && forall k :: k != ThemeKey && k in Effective(s.settings, s.queue[index]) ==>
           k in Effective(s.settings, item) && Effective(s.settings, item)[k] == Effective(s.settings, s.queue[index])[k]
  {
  }
}

=== FILE: overlay.dfy ===
/** The server's in-memory state and the events it broadcasts, as one
    immutable record. Every handler of the server becomes a pure transition
    from a `State` to a `Transition`: the next state plus the socket events
    the handler emitted, in order. */
module Overlay {
  import opened Wrappers
  import opened Js

  /** A display settings object: option name to value. */
  type Settings = map<string, Value>

  const ThemeKey: string := "theme"
  const DurationKey: string := "defaultDuration"

  /** Global settings always hold a numeric `defaultDuration`: the server
      initialises it and nothing in the server ever writes it. */
  type GlobalSettings = g: Settings | DurationKey in g && g[DurationKey].Number?
    witness map["defaultDuration" := Number(10)]

  /** The settings the server starts with. `scale` is the floating point 1.0,
      which the model does not interpret. */
  const InitialSettings: GlobalSettings := map[
    "showAvatar" := Flag(true), "showName" := Flag(true), "showMedia" := Flag(true),
    "showStats" := Flag(true), "showDate" := Flag(true), "scale" := Other("1.0"),
    "defaultDuration" := Number(10)]

  /** The global default display time of one item, in seconds. */
  function DefaultDuration(g: GlobalSettings): int {
    g[DurationKey].n
  }

  /** One queued post. `content` stands for the fetched payload, which the
      server passes through untouched. `customSettings` is absent (`null`)
      until an operator sets a theme; `customDuration` is `null` unless set. */
  datatype Item = Item(
    idStr: string,
    content: string,
    customSettings: Option<Settings>,
    customDuration: Option<int>)

  /** The process-wide state: the queue, the shown index (`-1` for none), the
      auto-advance flag, the pending one-shot advance (its delay in ms, or
      none) and the global settings. A single optional field is what makes
      "at most one pending timer" hold by construction. */
  datatype State = State(
    queue: seq<Item>,
    cursor: int,
    auto: bool,
    timer: Option<int>,
    settings: GlobalSettings)

  /** The three socket events. `Show` carries the 1-based position. */
  datatype Event =
    | Show(tweet: Item, position: int, total: int, shown: Settings)
    | StateUpdate(queue: seq<Item>, current: int, isAuto: bool, global: Settings)
    | Hide

  datatype Transition = Transition(state: State, events: seq<Event>)

  /** The `state_update` broadcast of a state: everything but the timer. */
  function Snapshot(s: State): (e: Event)
    ensures e.StateUpdate?
    ensures e.queue == s.queue && e.current == s.cursor && e.isAuto == s.auto && e.global == s.settings
  {
    StateUpdate(s.queue, s.cursor, s.auto, s.settings)
  }

  /** Two states broadcast alike exactly when they differ at most in their
      pending timer. */
  lemma SnapshotHidesOnlyTimer(s: State, s': State)
    ensures Snapshot(s) == Snapshot(s') <==> s.(timer := s'.timer) == s'
  {
  }

  /** The process state before anything has been loaded or done. */
  const Initial: State := State([], -1, false, None, InitialSettings)

  /** The invariant the handlers keep: the cursor is `-1` or a valid index,
      and a timer is pending only while auto-advance is on over a non-empty
      queue. */
  predicate Valid(s: State) {
    && (s.cursor == -1 || 0 <= s.cursor < |s.queue|)
    && (s.timer.Some? ==> s.auto && |s.queue| > 0)
  }

  /** Idle: nothing shown, auto-advance off, no timer. */
  predicate Idle(s: State) {
    s.cursor == -1 && !s.auto && s.timer.None?
  }

  lemma InitialIsValidAndIdle()
    ensures Valid(Initial) && Idle(Initial) && |Initial.queue| == 0
    ensures DefaultDuration(Initial.settings) == 10
  {
  }
}

=== FILE: playback.dfy ===
/** The cursor and auto-advance controller: `showTweet`, next/previous with
    circular wrap, the auto toggle, hide, and the timer callback. */
module Playback {
  import opened Wrappers
  import opened Js
  import opened Overlay
  import opened DisplaySettings

  /** `showTweet(i)`: out-of-range indices are ignored; otherwise the item is
      shown, the new state is broadcast and, while auto-advance is on, the
      pending timer is replaced by one for this item's duration. */
  function ShowTweet(s: State, i: int): (t: Transition)
    ensures !(0 <= i < |s.queue|) ==> t == Transition(s, [])
    ensures 0 <= i < |s.queue| ==>
              && t.state.cursor == i
              && t.state.queue == s.queue
              && t.state.auto == s.auto
              && t.state.settings == s.settings
              && t.events == [Show(s.queue[i], i + 1, |s.queue|, Effective(s.settings, s.queue[i])),
                              Snapshot(t.state)]
    ensures 0 <= i < |s.queue| && s.auto ==> t.state.timer == Some(ArmDuration(s.queue[i], s.settings))
    ensures 0 <= i < |s.queue| && !s.auto ==> t.state.timer == s.timer
    ensures Valid(s) ==> Valid(t.state)
  {
    if i < 0 || i >= |s.queue| then Transition(s, [])
    else
      var item := s.queue[i];
      var shown := s.(cursor := i);
      var show := Show(item, i + 1, |s.queue|, Effective(s.settings, item));
      var armed := if s.auto then shown.(timer := Some(ArmDuration(item, s.settings))) else shown;
      Transition(armed, [show, Snapshot(shown)])
  }

  /** Showing the shown item again changes nothing but re-arms the timer
      with the same duration. */
  lemma ShowTwice(s: State, i: int)
    ensures ShowTweet(ShowTweet(s, i).state, i).state == ShowTweet(s, i).state
  {
  }

  /** Next and previous on a non-empty queue, as `/trigger_next` and
      `/trigger_prev` compute them; on an empty queue nothing happens. */
  function Next(s: State): (t: Transition)
    ensures |s.queue| == 0 ==> t == Transition(s, [])
    ensures |s.queue| > 0 && -1 <= s.cursor < |s.queue| ==>
              t == ShowTweet(s, (s.cursor + 1) % |s.queue|)
    ensures |s.queue| > 0 && s.cursor == -1 ==> t.state.cursor == 0
    ensures |s.queue| > 0 && 0 <= s.cursor < |s.queue| - 1 ==> t.state.cursor == s.cursor + 1
    ensures |s.queue| > 0 && s.cursor == |s.queue| - 1 ==> t.state.cursor == 0
  {
    if |s.queue| == 0 then Transition(s, [])
    else ShowTweet(s, Rem(s.cursor + 1, |s.queue|))
  }

  function Prev(s: State): (t: Transition)
    ensures |s.queue| == 0 ==> t == Transition(s, [])
    ensures |s.queue| > 0 && -1 <= s.cursor < |s.queue| ==>
              t == ShowTweet(s, (s.cursor - 1 + |s.queue|) % |s.queue|)
    ensures |s.queue| > 0 && 0 < s.cursor < |s.queue| ==> t.state.cursor == s.cursor - 1
    ensures |s.queue| > 0 && s.cursor == 0 ==> t.state.cursor == |s.queue| - 1
  {
    if |s.queue| == 0 then Transition(s, [])
    else
      var k := Rem(s.cursor - 1 + |s.queue|, |s.queue|);
      assert -1 <= s.cursor ==> k == (s.cursor - 1 + |s.queue|) % |s.queue| by {
        if -1 <= s.cursor && s.cursor - 1 + |s.queue| < 0 {
          assert Rem(-1, 1) == 0;
        }
      }
      ShowTweet(s, k)
  }

  /** From nothing shown, "previous" lands on the second-to-last item (the
      only item of a one-item queue), because the same formula is used with
      a cursor of -1. */
  lemma PrevFromIdle(s: State)
    requires |s.queue| > 0 && s.cursor == -1
    ensures |s.queue| >= 2 ==> Prev(s).state.cursor == |s.queue| - 2
    ensures |s.queue| == 1 ==> Prev(s).state.cursor == 0
  {
  }

  /** Previous undoes next, and next undoes previous, on a valid cursor. */
  lemma PrevUndoesNext(s: State)
    requires |s.queue| > 0 && 0 <= s.cursor < |s.queue|
    ensures Prev(Next(s).state).state.cursor == s.cursor
    ensures Next(Prev(s).state).state.cursor == s.cursor
  {
  }

  /** `n` presses of "next". */
  function NextTimes(s: State, n: nat): State
    decreases n
  {
    if n == 0 then s else NextTimes(Next(s).state, n - 1)
  }

  /** Within one lap, `n` presses of "next" from a valid cursor move it `n`
      places forward, wrapping past the end once; the queue is untouched. */
  lemma {:induction false} NextTimesMoves(s: State, n: nat)
    requires 0 <= s.cursor < |s.queue| && n <= |s.queue|
    ensures NextTimes(s, n).queue == s.queue
    ensures NextTimes(s, n).cursor ==
              if s.cursor + n < |s.queue| then s.cursor + n else s.cursor + n - |s.queue|
    decreases n
  {
    if n > 0 {
      NextTimesMoves(Next(s).state, n - 1);
    }
  }

  /** Pressing "next" as many times as there are items comes back to the
      item shown at the start. */
  lemma NextCycle(s: State)
    requires 0 <= s.cursor < |s.queue|
    ensures NextTimes(s, |s.queue|).cursor == s.cursor
    ensures NextTimes(s, |s.queue|).queue == s.queue
  {
    NextTimesMoves(s, |s.queue|);
  }

  /** The auto toggle: turning it on shows item 0 when nothing is shown and
      otherwise re-shows the current item, which arms the timer; turning it
      off cancels the timer and broadcasts the state. */
  function ToggleAuto(s: State): (t: Transition)
    ensures t.state.auto == !s.auto
    ensures t.state.queue == s.queue && t.state.settings == s.settings
    ensures s.auto ==> t.state == s.(auto := false, timer := None) && t.events == [Snapshot(t.state)]
    ensures !s.auto && s.cursor == -1 ==> t == ShowTweet(s.(auto := true), 0)
    ensures !s.auto && s.cursor != -1 ==> t == ShowTweet(s.(auto := true), s.cursor)
    ensures !s.auto && 0 <= s.cursor < |s.queue| ==>
              t.state.cursor == s.cursor && t.state.timer == Some(ArmDuration(s.queue[s.cursor], s.settings))
    ensures !s.auto && s.cursor == -1 && |s.queue| > 0 ==>
              t.state.cursor == 0 && t.state.timer == Some(ArmDuration(s.queue[0], s.settings))
    ensures Valid(s) ==> Valid(t.state)
  {
    if !s.auto then
      var on := s.(auto := true);
      if s.cursor == -1 then ShowTweet(on, 0) else ShowTweet(on, s.cursor)
    else
      var off := s.(auto := false, timer := None);
      Transition(off, [Snapshot(off)])
  }

  /** `/hide`: the display is told to hide, the timer is cancelled and
      auto-advance is forced off; queue and cursor stay as they were. */
  function HideDisplay(s: State): (t: Transition)
    ensures t.state.queue == s.queue && t.state.cursor == s.cursor && t.state.settings == s.settings
    ensures !t.state.auto && t.state.timer.None?
    ensures t.events == [Hide, Snapshot(t.state)]
    ensures Valid(s) ==> Valid(t.state)
  {
    var hidden := s.(auto := false, timer := None);
    Transition(hidden, [Hide, Snapshot(hidden)])
  }

  /** The pending timer's callback: the timer is spent, and the item after
      the cursor (circularly) is shown, which arms the next timer. */
  function Fire(s: State): (t: Transition)
    requires Valid(s) && s.timer.Some?
    ensures t == ShowTweet(s.(timer := None), (s.cursor + 1) % |s.queue|)
    ensures t.state.cursor == (s.cursor + 1) % |s.queue|
    ensures t.state.timer == Some(ArmDuration(s.queue[t.state.cursor], s.settings))
    ensures Valid(t.state)
  {
    ShowTweet(s.(timer := None), Rem(s.cursor + 1, |s.queue|))
  }

  /** Toggling twice from "off" ends with auto-advance off, no timer, and
      the cursor wherever the first toggle put it. */
  lemma ToggleTwice(s: State)
    requires Valid(s) && !s.auto
    ensures var on := ToggleAuto(s).state;
      var off := ToggleAuto(on).state;
      && !off.auto && off.timer.None? && off.queue == s.queue && off.cursor == on.cursor
      && (|s.queue| > 0 ==> off.cursor == (if s.cursor == -1 then 0 else s.cursor))
  {
  }

  /** Hiding is idempotent. */
  lemma HideTwice(s: State)
    ensures HideDisplay(HideDisplay(s).state) == HideDisplay(s)
  {
  }
}

=== FILE: server.dfy ===
/** The command surface: every route and callback of the server that touches
    the playback state, dispatched to its transition, and the invariant all of
    them keep. */
module Server {
  import opened Wrappers
  import opened Js
  import opened Overlay
  import opened Playback
  import opened Manage
  import opened Intake
  import opened TweetUrl
  import opened AsWritten

  /** The `action` of `/api/control`; any other action does nothing. */
  datatype ControlAction = ShowAt(index: int) | NextItem | PrevItem | ToggleAutoAction | OtherControl

  /** The `action` of `/api/manage`; any other action only broadcasts. */
  datatype ManageAction = DeleteAt(index: int) | ClearAll | OtherManage

  datatype Command =
    | Control(control: ControlAction)
    | ManageQueue(manage: ManageAction)
    | Edit(editIndex: int, theme: Value)
    | AddTweet(url: string, addTheme: Value, fetched: Option<Item>)
    | TriggerNext
    | TriggerPrev
    | TriggerAuto
    | HideRoute
    | TimerFires

  /** `/api/control`. "next" and "prev" on an empty queue are ignored, as the
      `/trigger_*` routes do (see `AsWritten.ControlNext` for what the route
      does instead). */
  function ControlRoute(s: State, a: ControlAction): (t: Transition)
    ensures Valid(s) ==> Valid(t.state)
    ensures t.state.settings == s.settings
    ensures a.NextItem? && |s.queue| > 0 ==> ControlNext(s) == Completed(t)
    ensures a.PrevItem? && |s.queue| > 0 ==> ControlPrev(s) == Completed(t)
    ensures a.NextItem? || a.PrevItem? ==> t.state.queue == s.queue && t.state.auto == s.auto
    ensures a.OtherControl? ==> t == Transition(s, [])
  {
    match a
    case ShowAt(i) => ShowTweet(s, i)
    case NextItem => Next(s)
    case PrevItem => Prev(s)
    case ToggleAutoAction => ToggleAuto(s)
    case OtherControl => Transition(s, [])
  }

  /** `/api/manage`. Delete and clear already end with the handler's closing
      broadcast; any other action is only that broadcast. */
  function ManageRoute(s: State, a: ManageAction): (t: Transition)
    ensures Valid(s) ==> Valid(t.state)
    ensures t.state.settings == s.settings
    ensures |t.events| > 0 && t.events[|t.events| - 1] == Snapshot(t.state)
    ensures a.DeleteAt? && 0 <= a.index < |s.queue| ==> t == DeleteUnchecked(s, a.index)
    ensures a.DeleteAt? && Valid(s) && a.index >= |s.queue| ==> t == DeleteUnchecked(s, a.index)
    ensures a.ClearAll? ==> Idle(t.state) && t.state.queue == []
    ensures a.OtherManage? ==> t == Transition(s, [Snapshot(s)])
  {
    match a
    case DeleteAt(i) => Delete(s, i)
    case ClearAll => Clear(s)
    case OtherManage => Transition(s, [Snapshot(s)])
  }

  /** One command, run to completion. A timer can only fire while one is
      pending. */
  function Apply(s: State, c: Command): (t: Transition)
    requires Valid(s)
    ensures Valid(t.state)
    ensures t.state.settings == s.settings
  {
    match c
    case Control(a) => ControlRoute(s, a)
    case ManageQueue(a) => ManageRoute(s, a)
    case Edit(i, theme) => EditTweet(s, i, theme)
    case AddTweet(url, theme, fetched) => Add(s, url, theme, fetched).step
    case TriggerNext => Next(s)
    case TriggerPrev => Prev(s)
    case TriggerAuto => ToggleAuto(s)
    case HideRoute => HideDisplay(s)
    case TimerFires => if s.timer.Some? then Fire(s) else Transition(s, [])
  }

  /** A run of commands from a state; the emitted events are concatenated. */
  function Run(s: State, cs: seq<Command>): (t: Transition)
    requires Valid(s)
    ensures Valid(t.state)
    decreases |cs|
  {
    if |cs| == 0 then Transition(s, [])
    else
      var first := Apply(s, cs[0]);
      var rest := Run(first.state, cs[1..]);
      Transition(rest.state, first.events + rest.events)
  }

  /** Every state the server reaches from its start holds the invariant: the
      cursor is -1 or valid, a timer is pending only under auto-advance, and
      the global settings never change. */
  lemma {:induction false} Reachable(cs: seq<Command>)
    ensures Valid(Run(Initial, cs).state)
    ensures Run(Initial, cs).state.settings == InitialSettings
  {
    RunKeepsSettings(Initial, cs);
  }

  lemma {:induction false} RunKeepsSettings(s: State, cs: seq<Command>)
    requires Valid(s)
    ensures Run(s, cs).state.settings == s.settings
    decreases |cs|
  {
    if |cs| > 0 {
      RunKeepsSettings(Apply(s, cs[0]).state, cs[1..]);
    }
  }

  /** Emptying the queue, by either route, means idle. */
  lemma EmptiedQueueIsIdle(s: State, c: Command)
    requires Valid(s) && |s.queue| > 0
    requires c == ManageQueue(ClearAll) || (c.ManageQueue? && c.manage.DeleteAt?)
    requires |Apply(s, c).state.queue| == 0
    ensures Idle(Apply(s, c).state)
    ensures Hide in Apply(s, c).events
  {
  }

  /** Once auto-advance is turned off, by the toggle or by `/hide`, no timer
      is pending, so a timer that would have fired shows nothing. */
  lemma NoShowAfterCancel(s: State, c: Command)
    requires Valid(s) && s.auto
    requires c == Control(ToggleAutoAction) || c == TriggerAuto || c == HideRoute
    ensures var off := Apply(s, c).state;
      && !off.auto && off.timer.None?
      && Apply(off, TimerFires) == Transition(off, [])
  {
  }

  /** Deleting the item just added gives the queue back. */
  lemma AddThenDelete(s: State, url: string, theme: Value, fetched: Option<Item>)
    requires Valid(s)
    ensures var added := Add(s, url, theme, fetched);
      added.reply == Added ==>
        Apply(added.step.state, ManageQueue(DeleteAt(|s.queue|))).state.queue == s.queue
  {
    var added := Add(s, url, theme, fetched);
    if added.reply == Added {
      assert added.step.state.queue[..|s.queue|] == s.queue;
    }
  }

  /** The completion of `loadDatabase`: a stored queue replaces the queue and
      is broadcast; cursor, auto-advance and timer are left alone. */
  function Restore(s: State, stored: Option<seq<Item>>): (t: Transition)
    ensures stored.None? ==> t == Transition(s, [])
    ensures stored.Some? ==> t.state == s.(queue := stored.value) && t.events == [Snapshot(t.state)]
  {
    match stored
    case None => Transition(s, [])
    case Some(q) =>
      var loaded := s.(queue := q);
      Transition(loaded, [Snapshot(loaded)])
  }

  /** Loaded at start-up, before anything was shown, the queue keeps the
      invariant. */
  lemma RestoreWhileIdle(s: State, stored: Option<seq<Item>>)
    requires Valid(s) && s.cursor == -1 && s.timer.None?
    ensures Valid(Restore(s, stored).state)
  {
  }

  /** The load is asynchronous: when it completes after the operator has
      shown an item with auto-advance on, a shorter stored queue leaves the
      cursor pointing past its end and the timer pending over it. */
  lemma LateRestoreBreaksCursor(item: Item)
    ensures var s := State([item], 0, true, Some(10000), InitialSettings);
      && Valid(s)
      && !Valid(Restore(s, Some([])).state)
  {
  }

  /** Nothing orders the start-up load before the first command, so the
      broken state is reachable: add a post and turn auto-advance on, then
      let a load of an empty stored queue complete. */
  lemma LateRestoreAfterCommands(url: string, post: Item)
    ensures ExtractId(url) == Some(post.idStr) ==>
      var s := Run(Initial, [AddTweet(url, Undefined, Some(post)), TriggerAuto]).state;
      && Valid(s) && s.cursor == 0 && s.timer.Some?
      && var late := Restore(s, Some([])).state;
      && late.cursor == 0 && late.timer.Some? && |late.queue| == 0
      && !Valid(late)
  {
    FirstAddQueues(url, post);
    RunTwo(Initial, AddTweet(url, Undefined, Some(post)), TriggerAuto);
  }

  /** The first add of a post from the start queues it, with nothing shown. */
  lemma FirstAddQueues(url: string, post: Item)
    ensures ExtractId(url) == Some(post.idStr) ==>
      Apply(Initial, AddTweet(url, Undefined, Some(post))).state == Initial.(queue := [NewTweet(post, Undefined)])
  {
    if ExtractId(url) == Some(post.idStr) {
      assert !Queued(Initial.queue, post.idStr);
    }
  }

  /** A run of two commands is the second applied after the first. */
  lemma RunTwo(s: State, c: Command, c': Command)
    requires Valid(s)
    ensures Run(s, [c, c']).state == Apply(Apply(s, c).state, c').state
  {
    var first := Apply(s, c).state;
    assert [c, c'][1..] == [c'] && [c'][1..] == [];
    assert Run(first, [c']).state == Run(Apply(first, c').state, []).state;
  }

}

=== FILE: settings.dfy ===
/** The two small rules of `showTweet`: which settings the display receives,
    and how long the auto-advance timer waits. */
module DisplaySettings {
  import opened Wrappers
  import opened Js
  import opened Overlay

  /** `{ ...global, ...(item.customSettings || {}) }`: the item's own keys
      override the global ones key by key. */
  function Effective(g: Settings, item: Item): (r: Settings)
    ensures r.Keys == g.Keys + item.customSettings.GetOr(map[]).Keys
    ensures forall k :: k in item.customSettings.GetOr(map[]) ==> r[k] == item.customSettings.value[k]
    ensures forall k :: k in g && k !in item.customSettings.GetOr(map[]) ==> r[k] == g[k]
  {
    g + item.customSettings.GetOr(map[])
  }

  /** An item without custom settings is shown with the global settings. */
  lemma EffectiveWithoutOverrides(g: Settings, item: Item)
    requires item.customSettings.None?
    ensures Effective(g, item) == g
  {
  }

  /** The item's duration override as the JavaScript value it is. */
  function DurationValue(d: Option<int>): Value {
    match d
    case Some(n) => Number(n)
    case None => Null
  }

  /** `(item.customDuration || global.defaultDuration) * 1000`. */
  function ArmDuration(item: Item, g: GlobalSettings): (ms: int)
    ensures item.customDuration.Some? && item.customDuration.value != 0 ==>
              ms == 1000 * item.customDuration.value
    ensures item.customDuration.None? || item.customDuration.value == 0 ==>
              ms == 1000 * DefaultDuration(g)
  {
    1000 * Or(DurationValue(item.customDuration), g[DurationKey]).n
  }
}

=== FILE: tweet_url.dfy ===
/** The post id that `processAdd` extracts from a URL with the regular
    expression `(?:twitter|x)\.com\/.*\/status\/(\d+)`: the first capture
    group of the first match. The matcher is written out as JavaScript's
    backtracking engine runs it: the match starting leftmost wins; from that
    start the greedy `.*` takes the longest span it can (it never crosses a
    line terminator) that is still followed by `/status/` and a digit; and
    the greedy `\d+` takes every digit that follows. */
module TweetUrl {
  import opened Wrappers

  predicate IsDigit(c: char) {
    '0' <= c <= '9'
  }

  /** The characters JavaScript's `.` does not match. */
  predicate IsLineTerminator(c: char) {
    c == '\n' || c == '\r' || c == '\U{2028}' || c == '\U{2029}'
  }

  /** `u` holds the literal `w` at position `i`. */
  predicate HasAt(u: string, i: nat, w: string) {
    i + |w| <= |u| && u[i..i + |w|] == w
  }

  /** Where the host part `twitter.com/` or `x.com/` starting at `p` ends. */
  function HostEnd(u: string, p: nat): (r: Option<nat>)
    ensures r.Some? ==> p + 6 <= r.value <= |u|
  {
    if HasAt(u, p, "twitter.com/") then Some(p + 12)
    else if HasAt(u, p, "x.com/") then Some(p + 6)
    else None
  }

  /** `/status/` followed by at least one digit starts at `k`. */
  predicate StatusAt(u: string, k: nat) {
    HasAt(u, k, "/status/") && k + 8 < |u| && IsDigit(u[k + 8])
  }

  predicate NoTerminator(u: string, i: nat, j: nat)
    requires i <= j <= |u|
  {
    forall m :: i <= m < j ==> !IsLineTerminator(u[m])
  }

  /** The regular expression matches starting at `p`, with its `.*` spanning
      `u[HostEnd(u, p)..k]`. */
  predicate MatchAt(u: string, p: nat, k: nat) {
    && HostEnd(u, p).Some?
    && HostEnd(u, p).value <= k <= |u|
    && NoTerminator(u, HostEnd(u, p).value, k)
    && StatusAt(u, k)
  }

  /** The match the engine reports: the leftmost start, and from it the
      longest `.*`. */
  ghost predicate ChosenMatch(u: string, p: nat, k: nat) {
    && MatchAt(u, p, k)
    && (forall q: nat, j: nat :: q < p ==> !MatchAt(u, q, j))
    && (forall j: nat :: MatchAt(u, p, j) ==> j <= k)
  }

  /** The end of the line that starts at `h`. */
  function LineEnd(u: string, h: nat): (e: nat)
    requires h <= |u|
    ensures h <= e <= |u| && NoTerminator(u, h, e)
    ensures e == |u| || IsLineTerminator(u[e])
    decreases |u| - h
  {
    if h == |u| || IsLineTerminator(u[h]) then h else LineEnd(u, h + 1)
  }

  /** The last position in `[h, e]` where `/status/<digit>` starts. */
  function LastStatus(u: string, h: nat, e: nat): (r: Option<nat>)
    requires h <= e
    ensures r.Some? ==> h <= r.value <= e && StatusAt(u, r.value)
    ensures r.Some? ==> forall j :: r.value < j <= e ==> !StatusAt(u, j)
    ensures r.None? ==> forall j :: h <= j <= e ==> !StatusAt(u, j)
    decreases e - h
  {
    if StatusAt(u, e) then Some(e)
    else if e == h then None
    else LastStatus(u, h, e - 1)
  }

  /** Where the `.*` ends when the match starts at `p`, if it can start there. */
  function MatchEnd(u: string, p: nat): (r: Option<nat>)
    ensures r.Some? ==> MatchAt(u, p, r.value)
    ensures r.Some? ==> forall j: nat :: MatchAt(u, p, j) ==> j <= r.value
    ensures r.None? ==> forall j: nat :: !MatchAt(u, p, j)
  {
    match HostEnd(u, p)
    case None => None
    case Some(h) => LastStatus(u, h, LineEnd(u, h))
  }

  /** The leftmost match starting at or after `p`. */
  function FirstMatch(u: string, p: nat): (r: Option<(nat, nat)>)
    requires p <= |u|
    ensures r.Some? ==> p <= r.value.0 && MatchAt(u, r.value.0, r.value.1)
    ensures r.Some? ==> forall q: nat, j: nat :: p <= q < r.value.0 ==> !MatchAt(u, q, j)
    ensures r.Some? ==> forall j: nat :: MatchAt(u, r.value.0, j) ==> j <= r.value.1
    ensures r.None? ==> forall q: nat, j: nat :: p <= q ==> !MatchAt(u, q, j)
    decreases |u| - p
  {
    match MatchEnd(u, p)
    case Some(k) => Some((p, k))
    case None =>
      if p == |u| then
        NoMatchAtEnd(u, p);
        None
      else
        var r := FirstMatch(u, p + 1);
        assert forall j: nat :: !MatchAt(u, p, j);
        r
  }

  /** No match starts at or past the end of the URL. */
  lemma NoMatchAtEnd(u: string, p: nat)
    requires p >= |u|
    ensures forall q: nat, j: nat :: p <= q ==> !MatchAt(u, q, j)
  {
  }

  /** The run of digits starting at `i`, as long as it goes. */
  function DigitRun(u: string, i: nat): (d: string)
    requires i <= |u|
    ensures i + |d| <= |u| && u[i..i + |d|] == d
    ensures forall m :: 0 <= m < |d| ==> IsDigit(d[m])
    ensures i + |d| == |u| || !IsDigit(u[i + |d|])
    decreases |u| - i
  {
    if i < |u| && IsDigit(u[i]) then [u[i]] + DigitRun(u, i + 1) else []
  }

  /** The first capture group of `url.match(...)`, or none when the URL does
      not match. */
  function ExtractId(u: string): (r: Option<string>)
    ensures r.None? <==> forall p: nat, k: nat :: !MatchAt(u, p, k)
    ensures r.Some? ==> exists p: nat, k: nat :: ChosenMatch(u, p, k) && r.value == DigitRun(u, k + 8)
    ensures r.Some? ==> |r.value| > 0 && forall m :: 0 <= m < |r.value| ==> IsDigit(r.value[m])
  {
    match FirstMatch(u, 0)
    case None => None
    case Some((p, k)) =>
      assert ChosenMatch(u, p, k);
      var d := DigitRun(u, k + 8);
      assert d[0] == u[k + 8];
      Some(d)
  }

  /** The regular expression determines the match it reports. */
  lemma ChosenMatchUnique(u: string, p: nat, k: nat, p': nat, k': nat)
    requires ChosenMatch(u, p, k) && ChosenMatch(u, p', k')
    ensures p == p' && k == k'
  {
  }

  /** A status URL yields its number. */
  lemma ExampleMatch()
    ensures ExtractId("x.com/a/status/7") == Some("7")
  {
    var u := "x.com/a/status/7";
    assert HostEnd(u, 0) == Some(6) by {
      assert u[0..6] == "x.com/";
    }
    assert LineEnd(u, 6) == 16;
    assert StatusAt(u, 7) by {
      assert u[7..15] == "/status/";
    }
    assert LastStatus(u, 6, 16) == Some(7);
    assert FirstMatch(u, 0) == Some((0, 7));
    assert DigitRun(u, 15) == "7";
  }

  /** A URL whose `/status/` directly follows the host does not match: the
      pattern wants a `/` after `.com` and another one before `status`, and
      here the span after the host is too short to hold `/status/<digit>`. */
  lemma ExampleNoMatch()
    ensures ExtractId("x.com/status/7").None?
  {
  }
}

=== FILE: wrappers.dfy ===
/** The optional-value datatype used throughout the model for JavaScript's
    `null` / `undefined` (an absent setting, a missing timer, a failed fetch). */
module Wrappers {

  datatype Option<+T> = None | Some(value: T) {

    /** The wrapped value, or `default` when there is none. */
    function GetOr(default: T): (r: T)
      ensures Some? ==> r == value
      ensures None? ==> r == default
    {
      match this
      case Some(v) => v
      case None => default
    }
  }
}
